=== FILE: README.md ===
# Delivery-time model monitoring, modelled in Dafny

This project models the monitoring core of a food-delivery time predictor. The core has four parts:

- **Prediction logger** (`ProdLogger`). Every served prediction is appended to a rolling log file, which is then cut back to its newest 20 rows.
- **Drift computation** (`Drift`). The timestamp column is dropped from the reference and production datasets. A statistical drift report runs on what remains. Its metric list is folded into a drifted-column count, a drift share and a p-value per column.
- **Drift exporter** (`DriftApi`). Three gauges hold the drifted-column count, the drift share and a p-value per column label. `/drift` and `/metrics` recompute the drift, set the gauges, and read them back. `/drift` returns a JSON body and `/metrics` returns the exposition.
- **Inference service** (`App`). `/invocations` and `/predict` do the same steps in order:
  1. build a one-row frame from the 19-field request;
  2. clean it and drop rows with missing values;
  3. run the fitted transform;
  4. answer `{"error": "No valid data after cleaning"}` if the cleaned frame is empty;
  5. otherwise predict, log the raw request with the prediction, and return it.

Supporting modules:

- `Wrappers` holds `Option` and `Result`.
- `Text` models the string operations the drift fold uses: substring test, `split(sep)[-1]` and `rstrip`.
- `Frames` models the table operations: set a column, concat, `tail`, drop a column and `dropna`. A frame is a column list plus rows, and each row maps column names to cells. A key missing from a row is a missing value.
- `JsonData` is a JSON value.

Parameters stand in for the parts with no interpretation here:

- The file system: the log is an `Option<Frame>`, and `None` means no file yet.
- The clock.
- The statistical drift report: a function from the two frames and the column schema to the metric list, or `None` when the list is absent.
- The cleaning step, the fitted transform and the model. Each returns `None` when it raises.

The transform runs before the emptiness test (`monitoring/app.py` lines 85-87). So a transform that raises on an empty cleaned frame gives an error 500, and the fixed error message is reached only once the transform has succeeded.

Within the inputs the model represents, and apart from the `float()` conversion inside `Gauge.set`, an exception the code does not catch becomes a `Failure` value, or a `ServerError` response at the HTTP layer. The model covers these exceptions:

- a metric that lacks a field the loop reads;
- a metric `value` that cannot be subscripted;
- a cleaning, transform or prediction that raises;
- `[0]` on an empty prediction array.

"## Left out" lists the inputs it does not represent.

The request model in `monitoring/app.py` (lines 59-78) declares 19 fields.

## Model

| member | source | states |
|---|---|---|
| Text.FindFirst | monitoring/drift.py:44 | the first position where `sub` occurs in `s`, with no occurrence before it; `None` exactly when it occurs nowhere |
| Text.ContainsIff | monitoring/drift.py:44 | the substring test `sub in s` holds iff `sub` occurs at some position |
| Text.AfterLast | monitoring/drift.py:48 | `split(sep)[-1]` is a suffix of `s` containing no `sep`, and it is either all of `s` or directly preceded by an occurrence of `sep` |
| Text.AfterLastOfContained | monitoring/drift.py:48 | when `s` contains `sep`, the last piece starts right after an occurrence of `sep` and contains no `sep` |
| Text.RStrip | monitoring/drift.py:48 | `rstrip(c)` gives a prefix of `s` that does not end in `c`, and only `c` characters were removed |
| Text.RStripUnique | monitoring/drift.py:48 | any prefix with those properties is the result of `rstrip` |
| Frames.Without | monitoring/drift.py:15 | filtering a column list keeps exactly the names not dropped, in order |
| Frames.WithoutDistinct | monitoring/drift.py:15 | filtering keeps column names distinct |
| Frames.WithoutAppend | monitoring/drift.py:15 | filtering distributes over concatenation of column lists |
| Frames.SetColumn | monitoring/prod_logger.py:12-13 | assigning a scalar column keeps the row count |
| Frames.AddColumnAppends | monitoring/prod_logger.py:12-13 | assigning a column appends its name when it is absent and leaves the column list as it is when present |
| Frames.SetColumnRows | monitoring/prod_logger.py:12-13 | every row gains the column with the given value and keeps all its other entries |
| Frames.SetColumnColumns | monitoring/prod_logger.py:12-13 | a new column is appended at the end, and an existing column keeps its position |
| Frames.SetColumnWellFormed | monitoring/prod_logger.py:12-13 | assigning a column keeps a frame well formed |
| Frames.Concat | monitoring/prod_logger.py:18 | `concat(..., ignore_index=True)` puts the first frame's rows before the second frame's |
| Frames.ConcatColumns | monitoring/prod_logger.py:18 | the result's columns are the union, the first frame's columns come first, and same-column frames keep their columns |
| Frames.ConcatWellFormed | monitoring/prod_logger.py:18 | concatenating well-formed frames gives a well-formed frame |
| Frames.Last | monitoring/prod_logger.py:23 | the last `n` elements, or all of them when there are fewer, in their original order |
| Frames.LastKeepsLast | monitoring/prod_logger.py:23 | a non-empty cut of a non-empty sequence ends with its last element |
| Frames.LastAppend | monitoring/prod_logger.py:22-23 | cutting to the last `n` before appending more changes nothing after the next cut |
| Frames.Tail | monitoring/prod_logger.py:23 | `tail(n)` keeps the columns and the last `n` rows in order |
| Frames.TailIsLast | monitoring/prod_logger.py:23 | the rows `tail(n)` keeps are the last `n` rows as `Last` defines them |
| Frames.TailWellFormed | monitoring/prod_logger.py:23 | `tail` keeps a frame well formed |
| Frames.DropColumnIfPresent | monitoring/drift.py:13-15 | after the guarded drop the column is gone, the row count is unchanged, and a frame without the column is returned as is |
| Frames.DropColumnKeepsOthers | monitoring/drift.py:13-15 | dropping keeps the other columns in order and every other entry of every row |
| Frames.SetThenDrop | monitoring/drift.py:13-15 | dropping a column makes any earlier assignment of that column invisible |
| Frames.SetThenDropColumns | monitoring/drift.py:13-15 | after the drop, the columns are the same whether or not the column was assigned first |
| Frames.SetThenDropRows | monitoring/drift.py:13-15 | after the drop, every row is the same whether or not the column was assigned first |
| Frames.UpdateThenRemove | monitoring/drift.py:13-15 | removing a key from a row erases any earlier write to that key |
| Frames.CompleteRowsSelects | monitoring/app.py:84 | every kept row is a complete row of the input, and every complete input row is kept |
| Frames.CompleteRowsAppend | monitoring/app.py:84 | filtering distributes over concatenation, so kept rows stay in their input order and keep their multiplicity |
| Frames.NoneComplete | monitoring/app.py:84 | when no row is complete, nothing is kept |
| Frames.DropNa | monitoring/app.py:84 | `dropna()` keeps the columns, and keeps exactly the input rows with no missing value and no other rows |
| Frames.DropNaAllIncomplete | monitoring/app.py:84-87 | when every row misses a value, the frame left by `dropna()` is empty |
| Frames.DropNaAllComplete | monitoring/app.py:84 | when every row is complete, `dropna()` returns the frame unchanged |
| Frames.AllComplete | monitoring/app.py:84 | filtering a list of complete rows keeps the whole list |
| Frames.IsEmpty | monitoring/app.py:87 | `df.empty`: no rows or no columns; a predicate with no contract of its own, used by Frames.DropNaAllIncomplete, App.Answer and App.EmptyAfterCleaning |
| ProdLogger.WithPrediction | monitoring/prod_logger.py:11-13 | the extended request has one row per request row |
| ProdLogger.LoggedRowFields | monitoring/prod_logger.py:11-13 | each logged row is the request row plus `prediction` and `timestamp` holding the given values, other entries unchanged |
| ProdLogger.LoggedColumns | monitoring/prod_logger.py:11-13 | the logged columns are the request columns followed by `prediction` and `timestamp` |
| ProdLogger.WithPredictionWellFormed | monitoring/prod_logger.py:11-13 | extending a well-formed request keeps it well formed |
| ProdLogger.LogPredictionInput | monitoring/prod_logger.py:10-24 | the written log has at most 20 rows: the last 20 rows of the old rows followed by the new ones, taken together |
| ProdLogger.FirstLogIsTheRow | monitoring/prod_logger.py:19-20 | without a log file, the new log is exactly the one extended row |
| ProdLogger.NewRowIsLast | monitoring/prod_logger.py:16-23 | the newly logged row is the last row of the log |
| ProdLogger.NoEvictionBelowCapacity | monitoring/prod_logger.py:16-23 | below 20 rows the old rows stay as an unchanged prefix and one row is added |
| ProdLogger.EvictsOldestAtCapacity | monitoring/prod_logger.py:16-23 | at 20 rows exactly the oldest row is evicted and the rest move up by one |
| ProdLogger.LogSchemaStable | monitoring/prod_logger.py:10-24 | the log's columns stay the request columns plus `prediction` and `timestamp` across writes |
| ProdLogger.LogWellFormed | monitoring/prod_logger.py:10-24 | logging keeps a well-formed log well formed |
| ProdLogger.ReplayAppend | monitoring/prod_logger.py:10-24 | one more call logs on top of the log that the earlier calls left |
| ProdLogger.ReplayKeepsNewest | monitoring/prod_logger.py:16-24 | starting from no file, any sequence of calls leaves the newest 20 produced rows in call order |
| ProdLogger.ReplaySingleRows | monitoring/prod_logger.py:16-24 | after n one-row calls from no file, the log holds the rows of the last min(n, 20) calls, oldest first |
| ProdLogger.ProducedIsRowsOf | monitoring/prod_logger.py:11-13 | one-row calls produce one logged row each, in call order |
| ProdLogger.ProducedSingleRows | monitoring/prod_logger.py:11-13 | the produced rows are indexed by call, each one the extended request row of its call |
| Drift.ExtractFrom | monitoring/drift.py:43-49 | the loop over the metrics; no contract of its own; Drift.ExtractFailsIff, Drift.CountFromLastCountMetric, Drift.PvalueKeys and Drift.PvalueFromLastMetric state its result |
| Drift.ColumnKey | monitoring/drift.py:48 | the column key of an id; no contract of its own; Drift.ColumnKeyShape and Drift.ColumnKeyWithoutPrefix state its result |
| Drift.ColumnKeyShape | monitoring/drift.py:48 | a column key is no longer than the id, contains no `column=` and does not end in `)` |
| Drift.Step | monitoring/drift.py:44-49 | one loop iteration succeeds exactly when the metric's `value` fields it reads are present and subscriptable |
| Drift.StepSetsKey | monitoring/drift.py:47-49 | a per-column metric writes its value under its column key |
| Drift.StepKeepsOtherKey | monitoring/drift.py:47-49 | a step leaves every p-value alone except the one under its own column key |
| Drift.StepKeys | monitoring/drift.py:47-49 | a step adds exactly its own column key to the p-value map, and only for a per-column metric |
| Drift.ExtractDriftMetrics | monitoring/drift.py:39-49 | without a `metrics` list the result is the defaults: count 0, share 0.0, no p-values; a present list is folded by the loop |
| Drift.ExtractLast | monitoring/drift.py:43-49 | a fold that succeeds is the last step applied to the successful fold of the metrics before it |
| Drift.ExtractFailsIff | monitoring/drift.py:43-49 | the fold raises exactly when some metric in the list cannot be read |
| Drift.PrefixReadable | monitoring/drift.py:43 | every metric before the last in the list is read at the same index |
| Drift.CountDefault | monitoring/drift.py:39-40 | without a count metric, count and share keep their defaults 0 and 0.0 |
| Drift.CountFromLastCountMetric | monitoring/drift.py:44-46 | count and share come from the last metric whose id contains `DriftedColumnsCount` |
| Drift.CountFromFinalMetric | monitoring/drift.py:44-46 | a count metric at the end of the list sets count and share from its own fields |
| Drift.StepSetsCount | monitoring/drift.py:44-46 | a readable count metric sets count and share from its own fields |
| Drift.CountSurvivesLastStep | monitoring/drift.py:43-49 | a final metric outside the count branch leaves count and share as the earlier metrics left them |
| Drift.PrefixSucceeds | monitoring/drift.py:43-49 | if the loop finishes, the loop over the earlier metrics finishes too |
| Drift.PvalueKeys | monitoring/drift.py:47-49 | the p-value keys are exactly the column keys of the per-column metrics |
| Drift.PvalueFromLastMetric | monitoring/drift.py:47-49 | each column's p-value is the value of the last per-column metric with that key |
| Drift.PvalueFromFinalMetric | monitoring/drift.py:47-49 | a per-column metric with a value, after earlier metrics that fold successfully, lets the fold succeed and leaves its value under its key |
| Drift.PvalueSurvivesLastStep | monitoring/drift.py:47-49 | a key the final metric does not write keeps the value the earlier metrics gave it |
| Drift.IgnoredMetric | monitoring/drift.py:43-49 | a metric whose id matches neither pattern changes nothing |
| Drift.BothPatternsCountOnly | monitoring/drift.py:44-47 | an id that matches both patterns takes the count branch only and leaves the p-values alone |
| Drift.ColumnKeyWithoutPrefix | monitoring/drift.py:48 | an id without `column=` keys the whole id, minus its trailing `)` characters |
| Drift.ToJson | monitoring/drift.py:51-55 | the returned dictionary has exactly the keys `drifted_count`, `drift_share` and `column_pvalues` |
| Drift.CalculateDriftMetrics | monitoring/drift.py:9-55 | a missing production log raises instead of producing a result; Drift.ReportSeesFramesWithoutTimestamp states what the report receives |
| Drift.ReportSeesFramesWithoutTimestamp | monitoring/drift.py:13-37 | the report receives the production data, then the reference data, each with only `timestamp` removed, and the delivery schema; the result is the loop over the metrics it returns |
| Drift.DroppedIsWithoutTimestamp | monitoring/drift.py:13-15 | the guarded drop gives exactly the frame with `timestamp` removed from the columns and from every row |
| Drift.NoTimestampReportSeesInputs | monitoring/drift.py:13-37 | frames without a `timestamp` column reach the report unchanged, production data first |
| Drift.TimestampInvisible | monitoring/drift.py:13-15 | rewriting every timestamp in both the reference and the production data cannot change the drift result |
| DriftApi.SetGauges | monitoring/drift_api.py:27-31 | count and share take the result's values, every reported column's label takes its p-value, and every other label keeps its old value |
| DriftApi.UpdateDriftMetrics | monitoring/drift_api.py:24-31 | a failed computation sets no gauge, and a successful one sets them from its result |
| DriftApi.StaleLabelsPersist | monitoring/drift_api.py:30-31 | a label set earlier survives an update that does not mention it |
| DriftApi.SetGaugesIdempotent | monitoring/drift_api.py:24-31 | applying the same result twice is the same as applying it once |
| DriftApi.DriftBody | monitoring/drift_api.py:36-43 | the body has exactly the keys `drifted_columns`, `drift_share` and `column_pvalues`, and the last lists every label of the gauge |
| DriftApi.CalculateDrift | monitoring/drift_api.py:33-43 | a failure leaves the gauges as they were and gives an error 500; a success returns the new values, with p-values for every label ever set |
| DriftApi.Metrics | monitoring/drift_api.py:45-48 | a failure leaves the gauges as they were; a success exports exactly the updated gauges |
| DriftApi.FirstDriftReportsResult | monitoring/drift_api.py:20-43 | from the gauges as they start, the first successful `/drift` reports exactly the result's column labels and p-values |
| DriftApi.DriftAndMetricsAgree | monitoring/drift_api.py:33-48 | `/drift` and `/metrics` leave the gauges in the same state |
| DriftApi.MissingLogIsServerError | monitoring/drift_api.py:33-48 | without a production log, `/drift` and `/metrics` answer an error 500 and leave the gauges as they were |
| DriftApi.StaleLabelInDriftResponse | monitoring/drift_api.py:30-43 | a column reported only by an earlier result still appears in a later `/drift` body with its old p-value |
| App.RequestFrame | monitoring/app.py:83 | the request becomes a one-row frame |
| App.RequestFrameShape | monitoring/app.py:59-83 | the request frame is well formed, its row has every one of the 19 columns, and it has no `prediction` or `timestamp` column |
| App.RequestColumnsDistinct | monitoring/app.py:59-78 | the 19 field names are pairwise distinct |
| App.RequestRowKeys | monitoring/app.py:59-83 | the request row has exactly the 19 field names as keys |
| App.RequestLacksLogColumns | monitoring/app.py:59-78 | no request field is named `prediction` or `timestamp` |
| App.ResponseBody | monitoring/app.py:88-96 | a prediction answers `{"prediction": value}` and the empty case `{"error": "No valid data after cleaning"}`; an error 500 has no body of the service's own |
| App.Cleaned | monitoring/app.py:84 | the cleaned frame exists iff cleaning does not raise; it has the columns cleaning returned, and keeps exactly the complete rows cleaning returned |
| App.Transformed | monitoring/app.py:85 | the transform runs only once cleaning has succeeded; App.CompleteRequestPredicts and App.IncompleteRequestTransformDecides state that it receives the cleaned frame, even an empty one |
| App.Outputs | monitoring/app.py:91 | the model runs only on a transformed frame; App.CompleteRequestPredicts states that it receives the transform's output |
| App.Answer | monitoring/app.py:82-96 | a prediction iff cleaning and the transform succeed, the cleaned frame is non-empty, and the model returns at least one value; the prediction is then the first model output. The fixed error iff cleaning and the transform succeed on an empty cleaned frame. A cleaning that raises gives an error 500 |
| App.Invoke | monitoring/app.py:82-96 | only a prediction writes to the log, and it logs the raw request frame with the returned value; every other answer leaves the log as it was |
| App.EmptyAfterCleaning | monitoring/app.py:84-88 | an empty cleaned frame never writes to the log, and it answers the fixed error body exactly when the transform did not raise |
| App.RaisingCallIsServerError | monitoring/app.py:84-91 | a cleaning, transform or prediction that raises gives an error 500 and leaves the log as it was |
| App.CompleteRequestPredicts | monitoring/app.py:84-91 | a cleaned frame with columns and only complete rows goes unchanged to the transform, its output goes to the model, and the first model output is the answer |
| App.IncompleteRequestTransformDecides | monitoring/app.py:84-88 | when no cleaned row is complete, the transform runs on the cleaned columns without rows and alone decides between the fixed error and an error 500; nothing is predicted |
| App.AllRowsIncompleteIsNoValidData | monitoring/app.py:84-88 | when every cleaned row misses a value and the transform succeeds, the answer is the fixed error |
| App.SuccessLogsRawRequest | monitoring/app.py:91-96 | after a prediction the log's newest row is the raw request row with the returned prediction and the call's time |
| App.DoPredictions | monitoring/app.py:99-101 | `/predict`; no contract of its own; App.PredictMatchesInvocations states its result |
| App.PredictMatchesInvocations | monitoring/app.py:99-101 | `/predict` answers and logs exactly as `/invocations` does |
| App.Logged | monitoring/app.py:91-94 | every successful request logs one one-row frame |
| App.ServeAllReplaysSuccesses | monitoring/app.py:82-96 | after any request sequence the log is the logger replayed over the successful requests alone |
| App.ServedLogKeepsNewest | monitoring/app.py:91-94 | from no file, the log holds one row per successful request, for the newest min(successes, 20) of them, oldest first |
| App.InvokePreservesLogInvariant | monitoring/app.py:82-96 | any call keeps the log at no more than 20 rows, with the request columns plus `prediction` and `timestamp`, well formed |
| App.ServeAllPreservesLogInvariant | monitoring/app.py:82-96 | the log invariant holds after any request sequence |
| App.DriftSeesRequestAndPrediction | monitoring/drift.py:13-15 | the drift job sees a log of this shape as the 19 request columns followed by `prediction` |

## Left out

- The file system is not modelled. The log file, its existence check and the reference CSV are values. Reading back the CSV does not change column types in the model, though `read_csv` in the program re-infers them. A failed read or write is not modelled.
- The clock (`datetime.utcnow()`) is a parameter.
- The statistical drift report is a parameter from the two frames and the schema to the metric list. It is not reimplemented, and an exception it raises for too few rows is not modelled.
- The data-cleaning step, the fitted preprocessor and the model are parameters, as is their loading from pickle files. Each returns `None` when it raises.
- App.Invoke: the cleaning step is assumed to leave its argument unchanged and to have no other effect. The program logs the same frame object it passed to `perform_data_cleaning` (`monitoring/app.py` lines 84 and 94), and that function is not part of this model. If it edits the frame in place, the program logs the edited frame, while App.Invoke and App.SuccessLogsRawRequest log the raw request row.
- Pydantic validation of the request body is not modelled. A request that fails validation never reaches the handler.
- Float conversions are not modelled. `float(prediction)` in the response and the float conversion inside `Gauge.set` are left out. The gauges and the response hold the values as the computation produced them.
- DriftApi.UpdateDriftMetrics: in the program, a count, share or p-value that `float()` rejects (JSON `null`, a non-numeric string) raises inside `Gauge.set` (`monitoring/drift_api.py` lines 27, 28 and 31), and `/drift` and `/metrics` answer an error 500. The raise can come after some gauges were already set: count and share before a bad p-value, and the earlier labels, whose children `.labels(...)` has created. The model stores the value instead and answers normally.
- The Prometheus text exposition format is not modelled. `/metrics` returns the gauge state it would export. The unused `prediction_count` counter and the Prometheus client connection are left out.
- Some shapes of the report's JSON are not modelled, and the program raises on them:
  - a `metrics` entry that is JSON `null` or not a list;
  - a metric entry that is not an object;
  - a `metric_id` that is present but not a string.

  The report parameter gives a list of metrics, or `None` when `metrics` is absent. Each metric has an optional string id and an optional value.
- Concurrent requests are not modelled. Two requests racing on the log file's read-modify-write are out of scope, and requests are served one after another.
- Process start-up, module paths and `uvicorn.run` are left out. So are the other scripts of the repository: training, evaluation, registration, deployment, the simulator and the second serving script.
- `Ping` in both services is a constant function with no contract.

=== FILE: app.dfy ===
/**
 * The inference service: `/invocations` turns a request into a one-row frame,
 * cleans it, transforms it, predicts, logs the raw request with the prediction,
 * and returns the prediction. Cleaning, the fitted preprocessor and the model
 * are parameters with no interpretation that may raise; the log is passed in
 * and returned.
 */
module App {
  import opened Wrappers
  import opened Frames
  import opened JsonData
  import opened ProdLogger

  /** The request body: nineteen fields, typed as the pydantic model declares them. */
  datatype Data = Data(
    id: string,
    deliveryPersonId: string,
    deliveryPersonAge: string,
    deliveryPersonRatings: string,
    restaurantLatitude: real,
    restaurantLongitude: real,
    deliveryLocationLatitude: real,
    deliveryLocationLongitude: real,
    orderDate: string,
    timeOrdered: string,
    timeOrderPicked: string,
    weatherConditions: string,
    roadTrafficDensity: string,
    vehicleCondition: int,
    typeOfOrder: string,
    typeOfVehicle: string,
    multipleDeliveries: string,
    festival: string,
    city: string)

  /** The request's column names, in declaration order. */
  const RequestColumns: seq<string> := [
    "ID", "Delivery_person_ID", "Delivery_person_Age", "Delivery_person_Ratings",
    "Restaurant_latitude", "Restaurant_longitude",
    "Delivery_location_latitude", "Delivery_location_longitude",
    "Order_Date", "Time_Orderd", "Time_Order_picked", "Weatherconditions",
    "Road_traffic_density", "Vehicle_condition", "Type_of_order", "Type_of_vehicle",
    "multiple_deliveries", "Festival", "City"]

  /** `data.dict()` as one row. */
  function RequestRow(d: Data): Row {
    map[
      "ID" := Text(d.id),
      "Delivery_person_ID" := Text(d.deliveryPersonId),
      "Delivery_person_Age" := Text(d.deliveryPersonAge),
      "Delivery_person_Ratings" := Text(d.deliveryPersonRatings),
      "Restaurant_latitude" := Float(d.restaurantLatitude),
      "Restaurant_longitude" := Float(d.restaurantLongitude),
      "Delivery_location_latitude" := Float(d.deliveryLocationLatitude),
      "Delivery_location_longitude" := Float(d.deliveryLocationLongitude),
      "Order_Date" := Text(d.orderDate),
      "Time_Orderd" := Text(d.timeOrdered),
      "Time_Order_picked" := Text(d.timeOrderPicked),
      "Weatherconditions" := Text(d.weatherConditions),
      "Road_traffic_density" := Text(d.roadTrafficDensity),
      "Vehicle_condition" := Int(d.vehicleCondition),
      "Type_of_order" := Text(d.typeOfOrder),
      "Type_of_vehicle" := Text(d.typeOfVehicle),
      "multiple_deliveries" := Text(d.multipleDeliveries),
      "Festival" := Text(d.festival),
      "City" := Text(d.city)]
  }

  /** `pd.DataFrame([data.dict()])`. */
  function RequestFrame(d: Data): (f: Frame)
    ensures |f.rows| == 1
  {
    Frame(RequestColumns, [RequestRow(d)])
  }

  /** The request frame has every request column filled, and no prediction or timestamp column. */
  lemma RequestFrameShape(d: Data)
    ensures WellFormed(RequestFrame(d))
    ensures RequestFrame(d).rows[0].Keys == set c <- RequestColumns
    ensures PredictionColumn !in RequestColumns && TimestampColumn !in RequestColumns
  {
    RequestColumnsDistinct();
    RequestRowKeys(d);
    RequestLacksLogColumns();
  }

  lemma RequestLacksLogColumns()
    ensures PredictionColumn !in RequestColumns && TimestampColumn !in RequestColumns
  {
    forall k | 0 <= k < |RequestColumns|
      ensures RequestColumns[k] != PredictionColumn && RequestColumns[k] != TimestampColumn
    {
    }
  }

  lemma RequestColumnsDistinct()
    ensures Distinct(RequestColumns)
  {
    var cs := RequestColumns;
    forall k | 0 <= k < |cs|
      ensures forall i :: k < i < |cs| ==> cs[k] != cs[i]
    {
    }
  }

  lemma RequestRowKeys(d: Data)
    ensures RequestRow(d).Keys == set c <- RequestColumns
  {
  }

  /**
   * The collaborators loaded at start-up: the cleaning function, the fitted
   * preprocessor and the model. `None` from any of them means the call raised.
   */
  datatype Service = Service(
    clean: Frame -> Option<Frame>,
    transform: Frame -> Option<Frame>,
    predict: Frame -> Option<seq<real>>)

  const NoValidDataMessage: string := "No valid data after cleaning"

  /** What the endpoint answers: the prediction, the fixed error, or the framework's error 500. */
  datatype Response = Prediction(value: real) | NoValidData | ServerError

  /** The JSON body of a response; an error 500 has none of the service's own. */
  function ResponseBody(r: Response): (body: Option<Json>)
    ensures body.None? <==> r.ServerError?
    ensures body.Some? ==> body.value.JObject? && |body.value.fields| == 1
    ensures r.Prediction? ==> body.value.fields.Keys == {"prediction"} && body.value.fields["prediction"] == JFloat(r.value)
    ensures r.NoValidData? ==> body.value.fields.Keys == {"error"} && body.value.fields["error"] == JStr(NoValidDataMessage)
  {
    match r
    case Prediction(v) => Some(JObject(map["prediction" := JFloat(v)]))
    case NoValidData => Some(JObject(map["error" := JStr(NoValidDataMessage)]))
    case ServerError => None
  }

  /** `perform_data_cleaning(pred_data).dropna()`; `None` when the cleaning raises. */
  function Cleaned(svc: Service, d: Data): (c: Option<Frame>)
    ensures c.Some? <==> svc.clean(RequestFrame(d)).Some?
    ensures c.Some? ==> c.value.columns == svc.clean(RequestFrame(d)).value.columns
    ensures c.Some? ==> forall x <- c.value.rows :: Complete(c.value.columns, x) && x in svc.clean(RequestFrame(d)).value.rows
    ensures c.Some? ==> forall x <- svc.clean(RequestFrame(d)).value.rows :: Complete(c.value.columns, x) ==> x in c.value.rows
  {
    match svc.clean(RequestFrame(d))
    case None => None
    case Some(frame) => Some(DropNa(frame))
  }

  /** `preprocessor.transform(cleaned_data)`, which runs only once cleaning has succeeded. */
  function Transformed(svc: Service, d: Data): (t: Option<Frame>)
    ensures t.Some? ==> Cleaned(svc, d).Some?
  {
    match Cleaned(svc, d)
    case None => None
    case Some(cleaned) => svc.transform(cleaned)
  }

  /** `model.predict(transformed_data)`, which runs only on a transformed frame. */
  function Outputs(svc: Service, d: Data): (o: Option<seq<real>>)
    ensures o.Some? ==> Transformed(svc, d).Some?
  {
    match Transformed(svc, d)
    case None => None
    case Some(transformed) => svc.predict(transformed)
  }

  /** The request passes cleaning and the transform, and nothing is left after `dropna()`. */
  predicate EmptiedByCleaning(svc: Service, d: Data) {
    Transformed(svc, d).Some? && IsEmpty(Cleaned(svc, d).value)
  }

  /**
   * The response alone: the transform runs before the emptiness test, so a
   * transform that raises on the empty frame gives an error 500 rather than
   * the fixed message; a cleaning or prediction that raises gives an error
   * 500, and so does `[0]` on an empty prediction array.
   */
  function Answer(svc: Service, d: Data): (r: Response)
    ensures r.Prediction? <==>
              && Transformed(svc, d).Some?
              && !IsEmpty(Cleaned(svc, d).value)
              && Outputs(svc, d).Some?
              && |Outputs(svc, d).value| > 0
    ensures r.NoValidData? <==> EmptiedByCleaning(svc, d)
    ensures r.Prediction? ==> r.value == Outputs(svc, d).value[0]
    ensures svc.clean(RequestFrame(d)).None? ==> r == ServerError
  {
    match Cleaned(svc, d)
    case None => ServerError
    case Some(cleaned) =>
      match svc.transform(cleaned)
      case None => ServerError
      case Some(transformed) =>
        if IsEmpty(cleaned) then NoValidData
        else
          match svc.predict(transformed)
          case None => ServerError
          case Some(outputs) => if |outputs| == 0 then ServerError else Prediction(outputs[0])
  }

  /** `invoke`: the answer, and the log after the call. Only a prediction writes to the log. */
  function Invoke(svc: Service, log: Option<Frame>, d: Data, now: int): (out: (Response, Option<Frame>))
    ensures out.0 == Answer(svc, d)
    ensures !out.0.Prediction? ==> out.1 == log
    ensures out.0.Prediction? ==> out.1 == Some(LogPredictionInput(log, RequestFrame(d), out.0.value, now))
  {
    var answer := Answer(svc, d);
    match answer
    case Prediction(p) => (answer, Some(LogPredictionInput(log, RequestFrame(d), p, now)))
    case _ => (answer, log)
  }

  /** `/predict` forwards to `/invocations`. */
  function DoPredictions(svc: Service, log: Option<Frame>, d: Data, now: int): (out: (Response, Option<Frame>))
  {
    Invoke(svc, log, d, now)
  }

  /** `GET /ping`. */
  function Ping(): Json {
    JObject(map["status" := JStr("ok")])
  }

  /** A request that cleaning empties gets exactly the fixed error (once the transform has run) and is not logged. */
  lemma EmptyAfterCleaning(svc: Service, log: Option<Frame>, d: Data, now: int)
    requires Cleaned(svc, d).Some? && IsEmpty(Cleaned(svc, d).value)
    ensures Invoke(svc, log, d, now).1 == log
    ensures Transformed(svc, d).Some? ==>
              ResponseBody(Invoke(svc, log, d, now).0) == Some(JObject(map["error" := JStr("No valid data after cleaning")]))
    ensures Transformed(svc, d).None? ==> Invoke(svc, log, d, now).0 == ServerError
  {
  }

  /** A cleaning, transform or prediction that raises is an error 500 and writes nothing. */
  lemma RaisingCallIsServerError(svc: Service, log: Option<Frame>, d: Data, now: int)
    ensures Cleaned(svc, d).None? ==> Invoke(svc, log, d, now) == (ServerError, log)
    ensures Transformed(svc, d).None? ==> Invoke(svc, log, d, now) == (ServerError, log)
    ensures (Cleaned(svc, d).Some? && !IsEmpty(Cleaned(svc, d).value) && Outputs(svc, d).None?)
              ==> Invoke(svc, log, d, now) == (ServerError, log)
  {
  }

  /**
   * A cleaned frame with columns and only complete rows goes unchanged to the
   * transform, its output to the model, and the first model output is the answer.
   */
  lemma CompleteRequestPredicts(svc: Service, d: Data, c: Frame, t: Frame, o: seq<real>)
    requires svc.clean(RequestFrame(d)) == Some(c)
    requires |c.columns| > 0 && |c.rows| > 0 && forall x <- c.rows :: Complete(c.columns, x)
    requires svc.transform(c) == Some(t) && svc.predict(t) == Some(o) && |o| > 0
    ensures Answer(svc, d) == Prediction(o[0])
  {
    DropNaAllComplete(c);
  }

  /**
   * When no cleaned row is complete, the transform still runs, on the
   * cleaned columns without rows, and it alone decides between the fixed
   * error and an error 500; nothing is predicted.
   */
  lemma IncompleteRequestTransformDecides(svc: Service, d: Data, c: Frame)
    requires svc.clean(RequestFrame(d)) == Some(c)
    requires forall x <- c.rows :: !Complete(c.columns, x)
    ensures Answer(svc, d) == NoValidData <==> svc.transform(Frame(c.columns, [])).Some?
    ensures !Answer(svc, d).Prediction?
  {
    NoneComplete(c.columns, c.rows);
  }

  /**
   * When every cleaned row misses a value, a successful transform leads to the
   * fixed error: a corollary of IncompleteRequestTransformDecides.
   */
  lemma AllRowsIncompleteIsNoValidData(svc: Service, d: Data)
    requires svc.clean(RequestFrame(d)).Some?
    requires var c := svc.clean(RequestFrame(d)).value; forall x <- c.rows :: !Complete(c.columns, x)
    requires Transformed(svc, d).Some?
    ensures Answer(svc, d) == NoValidData
  {
    var c := svc.clean(RequestFrame(d)).value;
    IncompleteRequestTransformDecides(svc, d, c);
    NoneComplete(c.columns, c.rows);
  }

  /**
   * A successful call logs the raw request row, not the cleaned one, with the
   * very prediction it returns, as the newest row of a log of at most 20 rows.
   */
  lemma SuccessLogsRawRequest(svc: Service, log: Option<Frame>, d: Data, now: int)
    ensures var (resp, log') := Invoke(svc, log, d, now);
            resp.Prediction? ==>
              && log'.Some?
              && 1 <= |log'.value.rows| <= Capacity
              && log'.value.rows[|log'.value.rows| - 1]
                 == RequestRow(d)[PredictionColumn := Float(resp.value)][TimestampColumn := Stamp(now)]
  {
    var resp := Invoke(svc, log, d, now).0;
    if resp.Prediction? {
      NewRowIsLast(log, RequestFrame(d), resp.value, now);
    }
  }

  /** `/predict` and `/invocations` answer alike and leave the same log. */
  lemma PredictMatchesInvocations(svc: Service, log: Option<Frame>, d: Data, now: int)
    ensures DoPredictions(svc, log, d, now) == Invoke(svc, log, d, now)
  {
  }

  /** A request together with the time it arrives. */
  datatype Request = Request(data: Data, time: int)

  /** The log after serving `reqs` in order. */
  function ServeAll(svc: Service, log: Option<Frame>, reqs: seq<Request>): Option<Frame>
    decreases |reqs|
  {
    if |reqs| == 0 then log
    else
      var last := reqs[|reqs| - 1];
      Invoke(svc, ServeAll(svc, log, reqs[..|reqs| - 1]), last.data, last.time).1
  }

  /** The logger calls the successful requests make: raw request frame, prediction, time. */
  function Logged(svc: Service, reqs: seq<Request>): (entries: seq<Entry>)
    ensures SingleRows(entries)
    decreases |reqs|
  {
    if |reqs| == 0 then []
    else
      var last := reqs[|reqs| - 1];
      var earlier := Logged(svc, reqs[..|reqs| - 1]);
      match Answer(svc, last.data)
      case Prediction(p) => earlier + [Entry(RequestFrame(last.data), p, last.time)]
      case _ => earlier
  }

  /** Failed requests leave no trace: the log is the logger replayed over the successful calls alone. */
  lemma {:induction false} ServeAllReplaysSuccesses(svc: Service, log: Option<Frame>, reqs: seq<Request>)
    ensures ServeAll(svc, log, reqs) == Replay(log, Logged(svc, reqs))
    decreases |reqs|
  {
    if |reqs| > 0 {
      var n := |reqs|;
      var last := reqs[n - 1];
      ServeAllReplaysSuccesses(svc, log, reqs[..n - 1]);
      var before := ServeAll(svc, log, reqs[..n - 1]);
      var earlier := Logged(svc, reqs[..n - 1]);
      assert before == Replay(log, earlier);
      var answer := Answer(svc, last.data);
      if answer.Prediction? {
        var e := Entry(RequestFrame(last.data), answer.value, last.time);
        assert Logged(svc, reqs) == earlier + [e];
        assert ServeAll(svc, log, reqs) == Some(LogPredictionInput(before, e.data, e.prediction, e.time));
        ReplayAppend(log, earlier, e);
      } else {
        assert Logged(svc, reqs) == earlier;
        assert ServeAll(svc, log, reqs) == before;
      }
    }
  }

  /**
   * From no log, after any requests the log holds one row per successful
   * request, for the newest min(successes, 20) of them, oldest first.
   */
  lemma ServedLogKeepsNewest(svc: Service, reqs: seq<Request>)
    requires |Logged(svc, reqs)| > 0
    ensures ServeAll(svc, None, reqs).Some?
    ensures ServeAll(svc, None, reqs).value.rows == Last(RowsOf(Logged(svc, reqs)), Capacity)
  {
    ServeAllReplaysSuccesses(svc, None, reqs);
    ReplaySingleRows(Logged(svc, reqs));
  }

  /**
   * What every log file the service writes looks like: at most 20 rows, the
   * request columns followed by prediction and timestamp, each row within them.
   */
  predicate LogInvariant(log: Option<Frame>) {
    log.Some? ==>
      && |log.value.rows| <= Capacity
      && log.value.columns == LogColumns(RequestColumns)
      && WellFormed(log.value)
  }

  /** A call keeps the log in shape, whatever it answers. */
  lemma InvokePreservesLogInvariant(svc: Service, log: Option<Frame>, d: Data, now: int)
    requires LogInvariant(log)
    ensures LogInvariant(Invoke(svc, log, d, now).1)
  {
    var resp := Invoke(svc, log, d, now).0;
    if resp.Prediction? {
      RequestFrameShape(d);
      LogSchemaStable(log, RequestFrame(d), resp.value, now);
      LogWellFormed(log, RequestFrame(d), resp.value, now);
    }
  }

  lemma {:induction false} ServeAllPreservesLogInvariant(svc: Service, log: Option<Frame>, reqs: seq<Request>)
    requires LogInvariant(log)
    ensures LogInvariant(ServeAll(svc, log, reqs))
    decreases |reqs|
  {
    if |reqs| > 0 {
      var last := reqs[|reqs| - 1];
      ServeAllPreservesLogInvariant(svc, log, reqs[..|reqs| - 1]);
      InvokePreservesLogInvariant(svc, ServeAll(svc, log, reqs[..|reqs| - 1]), last.data, last.time);
    }
  }

  /**
   * The drift job reads a log of this shape as the request columns plus the
   * prediction: the timestamp is the only column it drops.
   */
  lemma DriftSeesRequestAndPrediction(log: Frame)
    requires LogInvariant(Some(log))
    ensures DropColumnIfPresent(log, TimestampColumn).columns == RequestColumns + [PredictionColumn]
  {
    var ts := {TimestampColumn};
    DropColumnKeepsOthers(log, TimestampColumn);
    RequestLacksLogColumns();
    WithoutAppend(RequestColumns, [PredictionColumn, TimestampColumn], ts);
    WithoutNothing(RequestColumns, ts);
    WithoutAppend([PredictionColumn], [TimestampColumn], ts);
    WithoutNothing([PredictionColumn], ts);
    WithoutEverything([TimestampColumn], ts);
  }
}

=== FILE: drift.dfy ===
/**
 * `calculate_drift_metrics`: drop the timestamp column from both datasets,
 * hand them to the statistical drift report (an opaque parameter here), and
 * fold the report's metric list into a drifted-column count, a drift share
 * and a p-value per column.
 */
module Drift {
  import opened Wrappers
  import opened Text
  import opened Frames
  import opened JsonData

  const CountMarker: string := "DriftedColumnsCount"
  const ValueDriftMarker: string := "ValueDrift"
  const ColumnPrefix: string := "column="

  /** The column typing handed to the drift report; it is fixed, not inferred from the data. */
  datatype Schema = Schema(numerical: seq<string>, categorical: seq<string>)

  const DeliverySchema: Schema := Schema(
    ["Restaurant_latitude", "Restaurant_longitude",
     "Delivery_location_latitude", "Delivery_location_longitude",
     "Vehicle_condition"],
    ["Delivery_person_Age", "Delivery_person_Ratings", "Order_Date",
     "Time_Orderd", "Time_Order_picked", "Weatherconditions",
     "Road_traffic_density", "Type_of_order", "Type_of_vehicle",
     "multiple_deliveries", "Festival", "City"])

  /** One entry of the report's `metrics` list; either key may be absent. */
  datatype Metric = Metric(metricId: Option<string>, value: Option<Json>)

  /** The dictionary `calculate_drift_metrics` returns. */
  datatype DriftResult = DriftResult(driftedCount: Json, driftShare: Json, columnPvalues: map<string, Json>)

  /** What the computation raises: a missing key, a subscript on a non-object, or an absent current dataset. */
  datatype DriftError = MissingKey(key: string) | NotSubscriptable | CurrentDataMissing

  /** The defaults before any metric is read. */
  const Initial: DriftResult := DriftResult(JInt(0), JFloat(0.0), map[])

  /** `metric.get("metric_id", "")`. */
  function IdOf(m: Metric): string {
    m.metricId.GetOr("")
  }

  /** Metrics handled by the count branch. */
  predicate IsCountMetric(m: Metric) {
    Contains(IdOf(m), CountMarker)
  }

  /** Metrics handled by the per-column branch: only those the count branch did not take. */
  predicate IsValueDriftMetric(m: Metric) {
    !IsCountMetric(m) && Contains(IdOf(m), ValueDriftMarker)
  }

  /** `metric_id.split("column=")[-1].rstrip(")")`. */
  function ColumnKey(id: string): string {
    RStrip(AfterLast(id, ColumnPrefix), ')')
  }

  /** A column key is a piece of the id with no "column=" in it and no trailing ')'. */
  lemma ColumnKeyShape(id: string)
    ensures |ColumnKey(id)| <= |id|
    ensures |ColumnKey(id)| == 0 || ColumnKey(id)[|ColumnKey(id)| - 1] != ')'
    ensures !Contains(ColumnKey(id), ColumnPrefix)
  {
    var piece := AfterLast(id, ColumnPrefix);
    OccursInPrefix(piece, ColumnKey(id), ColumnPrefix);
    ContainsIff(ColumnKey(id), ColumnPrefix);
  }

  /** `metric["value"]["count"]`, when it can be read. */
  function CountField(m: Metric): Option<Json> {
    match m.value
    case Some(JObject(fields)) => if "count" in fields then Some(fields["count"]) else None
    case _ => None
  }

  /** `metric["value"]["share"]`, when it can be read. */
  function ShareField(m: Metric): Option<Json> {
    match m.value
    case Some(JObject(fields)) => if "share" in fields then Some(fields["share"]) else None
    case _ => None
  }

  /** A metric the loop body reads without raising. */
  predicate Readable(m: Metric) {
    && (IsCountMetric(m) ==> CountField(m).Some? && ShareField(m).Some?)
    && (IsValueDriftMetric(m) ==> m.value.Some?)
  }

  /** One iteration of the loop over the report's metrics. */
  function Step(acc: DriftResult, m: Metric): (r: Result<DriftResult, DriftError>)
    ensures r.Success? <==> Readable(m)
  {
    if IsCountMetric(m) then
      match m.value
      case None => Failure(MissingKey("value"))
      case Some(JObject(fields)) =>
        if "count" !in fields then Failure(MissingKey("count"))
        else if "share" !in fields then Failure(MissingKey("share"))
        else Success(DriftResult(fields["count"], fields["share"], acc.columnPvalues))
      case Some(_) => Failure(NotSubscriptable)
    else if Contains(IdOf(m), ValueDriftMarker) then
      match m.value
      case None => Failure(MissingKey("value"))
      case Some(v) => Success(acc.(columnPvalues := acc.columnPvalues[ColumnKey(IdOf(m)) := v]))
    else
      Success(acc)
  }

  /** The loop over `ms`, left to right, stopping at the first metric that raises. */
  function ExtractFrom(ms: seq<Metric>): Result<DriftResult, DriftError>
    decreases |ms|
  {
    if |ms| == 0 then Success(Initial)
    else
      match ExtractFrom(ms[..|ms| - 1])
      case Failure(e) => Failure(e)
      case Success(acc) => Step(acc, ms[|ms| - 1])
  }

  /** The tail of `calculate_drift_metrics`: `result_dict.get("metrics", [])` folded into the result. */
  function ExtractDriftMetrics(metrics: Option<seq<Metric>>): (r: Result<DriftResult, DriftError>)
    ensures metrics.None? ==> r == Success(Initial)
    ensures metrics.Some? ==> r == ExtractFrom(metrics.value)
  {
    ExtractFrom(metrics.GetOr([]))
  }

  /** The extraction raises exactly when some metric cannot be read. */
  lemma {:induction false} ExtractFailsIff(ms: seq<Metric>)
    ensures ExtractFrom(ms).Failure? <==> exists i :: 0 <= i < |ms| && !Readable(ms[i])
    decreases |ms|
  {
    if |ms| > 0 {
      var n := |ms|;
      ExtractFailsIff(ms[..n - 1]);
      PrefixReadable(ms, ms[..n - 1]);
    }
  }

  lemma PrefixReadable(ms: seq<Metric>, prefix: seq<Metric>)
    requires |ms| > 0 && prefix == ms[..|ms| - 1]
    ensures (exists i :: 0 <= i < |prefix| && !Readable(prefix[i]))
        <==> (exists i :: 0 <= i < |prefix| && !Readable(ms[i]))
  {
    assert forall i :: 0 <= i < |prefix| ==> prefix[i] == ms[i];
  }

  /** Without any count metric the count and share keep their defaults 0 and 0.0. */
  lemma {:induction false} CountDefault(ms: seq<Metric>)
    requires forall i :: 0 <= i < |ms| ==> !IsCountMetric(ms[i])
    requires ExtractFrom(ms).Success?
    ensures ExtractFrom(ms).value.driftedCount == JInt(0)
    ensures ExtractFrom(ms).value.driftShare == JFloat(0.0)
    decreases |ms|
  {
    if |ms| > 0 {
      var n := |ms|;
      assert forall i :: 0 <= i < n - 1 ==> ms[..n - 1][i] == ms[i];
      CountDefault(ms[..n - 1]);
    }
  }

  /** Count and share come from the last metric whose id contains "DriftedColumnsCount". */
  lemma {:induction false} CountFromLastCountMetric(ms: seq<Metric>, i: nat)
    requires i < |ms| && IsCountMetric(ms[i])
    requires forall j :: i < j < |ms| ==> !IsCountMetric(ms[j])
    requires ExtractFrom(ms).Success?
    ensures CountField(ms[i]) == Some(ExtractFrom(ms).value.driftedCount)
    ensures ShareField(ms[i]) == Some(ExtractFrom(ms).value.driftShare)
    decreases |ms|
  {
    var n := |ms|;
    if i < n - 1 {
      var prefix := ms[..n - 1];
      PrefixSucceeds(ms);
      assert prefix[i] == ms[i];
      assert forall j :: i < j < |prefix| ==> prefix[j] == ms[j];
      CountFromLastCountMetric(prefix, i);
      CountSurvivesLastStep(ms);
    } else {
      CountFromFinalMetric(ms);
    }
  }

  /** A final count metric sets count and share from its own fields. */
  lemma CountFromFinalMetric(ms: seq<Metric>)
    requires |ms| > 0 && IsCountMetric(ms[|ms| - 1])
    requires ExtractFrom(ms).Success?
    ensures CountField(ms[|ms| - 1]) == Some(ExtractFrom(ms).value.driftedCount)
    ensures ShareField(ms[|ms| - 1]) == Some(ExtractFrom(ms).value.driftShare)
  {
    ExtractLast(ms);
    StepSetsCount(ExtractFrom(ms[..|ms| - 1]).value, ms[|ms| - 1]);
  }

  /** A count metric that can be read sets count and share from its fields. */
  lemma StepSetsCount(acc: DriftResult, m: Metric)
    requires IsCountMetric(m) && Step(acc, m).Success?
    ensures CountField(m) == Some(Step(acc, m).value.driftedCount)
    ensures ShareField(m) == Some(Step(acc, m).value.driftShare)
  {
  }

  /** A final metric outside the count branch leaves count and share as the earlier metrics left them. */
  lemma CountSurvivesLastStep(ms: seq<Metric>)
    requires |ms| > 0 && !IsCountMetric(ms[|ms| - 1])
    requires ExtractFrom(ms).Success?
    ensures ExtractFrom(ms[..|ms| - 1]).Success?
    ensures ExtractFrom(ms).value.driftedCount == ExtractFrom(ms[..|ms| - 1]).value.driftedCount
    ensures ExtractFrom(ms).value.driftShare == ExtractFrom(ms[..|ms| - 1]).value.driftShare
  {
    ExtractLast(ms);
  }

  /** A per-column metric that writes under key `k`. */
  predicate Writes(m: Metric, k: string) {
    IsValueDriftMetric(m) && ColumnKey(IdOf(m)) == k
  }

  /** The keys of the p-value map are exactly the column keys of the per-column metrics. */
  lemma {:induction false} PvalueKeys(ms: seq<Metric>)
    requires ExtractFrom(ms).Success?
    ensures forall k :: k in ExtractFrom(ms).value.columnPvalues <==>
              exists i :: 0 <= i < |ms| && Writes(ms[i], k)
    decreases |ms|
  {
    if |ms| > 0 {
      var n := |ms|;
      var prefix := ms[..n - 1];
      ExtractLast(ms);
      PvalueKeys(prefix);
      StepKeys(ExtractFrom(prefix).value, ms[n - 1]);
      forall k
        ensures k in ExtractFrom(ms).value.columnPvalues <==> exists i :: 0 <= i < n && Writes(ms[i], k)
      {
        WritesSplit(ms, prefix, k);
      }
    }
  }

  /** A step adds exactly its own column key, if it is a per-column metric. */
  lemma StepKeys(acc: DriftResult, m: Metric)
    requires Step(acc, m).Success?
    ensures Step(acc, m).value.columnPvalues.Keys
         == acc.columnPvalues.Keys + (if IsValueDriftMetric(m) then {ColumnKey(IdOf(m))} else {})
  {
  }

  lemma WritesSplit(ms: seq<Metric>, prefix: seq<Metric>, k: string)
    requires |ms| > 0 && prefix == ms[..|ms| - 1]
    ensures (exists i :: 0 <= i < |ms| && Writes(ms[i], k))
        <==> (exists i :: 0 <= i < |prefix| && Writes(prefix[i], k)) || Writes(ms[|ms| - 1], k)
  {
    assert forall i :: 0 <= i < |prefix| ==> prefix[i] == ms[i];
  }

  /**
   * For each column the p-value is the value of the last per-column metric with
   * that key: later entries overwrite earlier ones.
   */
  lemma {:induction false} PvalueFromLastMetric(ms: seq<Metric>, i: nat)
    requires i < |ms| && IsValueDriftMetric(ms[i])
    requires forall j :: i < j < |ms| ==> !Writes(ms[j], ColumnKey(IdOf(ms[i])))
    requires ExtractFrom(ms).Success?
    ensures ColumnKey(IdOf(ms[i])) in ExtractFrom(ms).value.columnPvalues
    ensures Some(ExtractFrom(ms).value.columnPvalues[ColumnKey(IdOf(ms[i]))]) == ms[i].value
    decreases |ms|
  {
    var n := |ms|;
    if i < n - 1 {
      var prefix := ms[..n - 1];
      var k := ColumnKey(IdOf(ms[i]));
      PrefixSucceeds(ms);
      assert prefix[i] == ms[i];
      assert forall j :: i < j < |prefix| ==> prefix[j] == ms[j];
      PvalueFromLastMetric(prefix, i);
      PvalueSurvivesLastStep(ms, k);
    } else {
      ExtractLast(ms);
      PvalueFromFinalMetric(ms);
    }
  }

  /**
   * A per-column metric with a value, at the end of a list whose earlier
   * metrics fold successfully, leaves its value under its key.
   */
  lemma PvalueFromFinalMetric(ms: seq<Metric>)
    requires |ms| > 0 && IsValueDriftMetric(ms[|ms| - 1]) && ms[|ms| - 1].value.Some?
    requires ExtractFrom(ms[..|ms| - 1]).Success?
    ensures ExtractFrom(ms).Success?
    ensures ColumnKey(IdOf(ms[|ms| - 1])) in ExtractFrom(ms).value.columnPvalues
    ensures Some(ExtractFrom(ms).value.columnPvalues[ColumnKey(IdOf(ms[|ms| - 1]))]) == ms[|ms| - 1].value
  {
    StepSetsKey(ExtractFrom(ms[..|ms| - 1]).value, ms[|ms| - 1]);
  }

  /** A key the final metric does not write keeps the value the earlier metrics gave it. */
  lemma PvalueSurvivesLastStep(ms: seq<Metric>, k: string)
    requires |ms| > 0 && ExtractFrom(ms).Success?
    requires ExtractFrom(ms[..|ms| - 1]).Success? && k in ExtractFrom(ms[..|ms| - 1]).value.columnPvalues
    requires !Writes(ms[|ms| - 1], k)
    ensures k in ExtractFrom(ms).value.columnPvalues
    ensures ExtractFrom(ms).value.columnPvalues[k] == ExtractFrom(ms[..|ms| - 1]).value.columnPvalues[k]
  {
    ExtractLast(ms);
    StepKeepsOtherKey(ExtractFrom(ms[..|ms| - 1]).value, ms[|ms| - 1], k);
  }

  /** The earlier metrics of a successful fold fold successfully too. */
  lemma PrefixSucceeds(ms: seq<Metric>)
    requires |ms| > 0 && ExtractFrom(ms).Success?
    ensures ExtractFrom(ms[..|ms| - 1]).Success?
  {
  }

  /** A successful fold is the last step applied to the successful fold of the earlier metrics. */
  lemma ExtractLast(ms: seq<Metric>)
    requires |ms| > 0 && ExtractFrom(ms).Success?
    ensures ExtractFrom(ms[..|ms| - 1]).Success?
    ensures ExtractFrom(ms) == Step(ExtractFrom(ms[..|ms| - 1]).value, ms[|ms| - 1])
  {
  }

  /** A per-column metric writes its value under its column key. */
  lemma StepSetsKey(acc: DriftResult, m: Metric)
    requires IsValueDriftMetric(m) && m.value.Some?
    ensures Step(acc, m).Success?
    ensures ColumnKey(IdOf(m)) in Step(acc, m).value.columnPvalues
    ensures Some(Step(acc, m).value.columnPvalues[ColumnKey(IdOf(m))]) == m.value
  {
  }

  /** A step leaves every p-value alone except the one its own column key names. */
  lemma StepKeepsOtherKey(acc: DriftResult, m: Metric, k: string)
    requires Step(acc, m).Success? && k in acc.columnPvalues
    requires IsValueDriftMetric(m) ==> ColumnKey(IdOf(m)) != k
    ensures k in Step(acc, m).value.columnPvalues
    ensures Step(acc, m).value.columnPvalues[k] == acc.columnPvalues[k]
  {
  }

  /** A metric whose id matches neither pattern leaves the result as it was. */
  lemma IgnoredMetric(ms: seq<Metric>, m: Metric)
    requires !Contains(IdOf(m), CountMarker) && !Contains(IdOf(m), ValueDriftMarker)
    ensures ExtractFrom(ms + [m]) == ExtractFrom(ms)
  {
    assert (ms + [m])[..|ms|] == ms;
  }

  /** An id containing both patterns goes to the count branch only: the p-values are not touched. */
  lemma BothPatternsCountOnly(acc: DriftResult, m: Metric)
    requires Contains(IdOf(m), CountMarker) && Contains(IdOf(m), ValueDriftMarker)
    requires Step(acc, m).Success?
    ensures Step(acc, m).value.columnPvalues == acc.columnPvalues
    ensures Some(Step(acc, m).value.driftedCount) == CountField(m)
  {
  }

  /** Without "column=" in the id, the key is the whole id with trailing ')' removed. */
  lemma ColumnKeyWithoutPrefix(id: string)
    requires !Contains(id, ColumnPrefix)
    ensures ColumnKey(id) == RStrip(id, ')')
  {
  }

  /** The dictionary `calculate_drift_metrics` returns. */
  function ToJson(r: DriftResult): (j: Json)
    ensures j.JObject? && j.fields.Keys == {"drifted_count", "drift_share", "column_pvalues"}
    ensures j.fields["column_pvalues"] == JObject(r.columnPvalues)
  {
    JObject(map["drifted_count" := r.driftedCount,
                "drift_share" := r.driftShare,
                "column_pvalues" := JObject(r.columnPvalues)])
  }

  /**
   * `calculate_drift_metrics(reference, current)`. The statistical report is
   * the parameter `report` (current data first, as `report.run` receives it);
   * a missing current-data file raises.
   */
  function CalculateDriftMetrics(reference: Frame, current: Option<Frame>,
                                 report: (Frame, Frame, Schema) -> Option<seq<Metric>>)
    : (r: Result<DriftResult, DriftError>)
    ensures current.None? ==> r == Failure(CurrentDataMissing)
  {
    match current
    case None => Failure(CurrentDataMissing)
    case Some(cur) =>
      var metrics := report(DropColumnIfPresent(cur, TimestampColumn),
                            DropColumnIfPresent(reference, TimestampColumn),
                            DeliverySchema);
      ExtractDriftMetrics(metrics)
  }

  /** `g` is `f` with the timestamp column removed: from the column list and from every row. */
  predicate WithoutTimestamp(f: Frame, g: Frame) {
    && g.columns == Without(f.columns, {TimestampColumn})
    && |g.rows| == |f.rows|
    && forall i :: 0 <= i < |g.rows| ==> g.rows[i] == f.rows[i] - {TimestampColumn}
  }

  /**
   * The report receives the production data first and the reference data
   * second, each with only the timestamp column removed, together with the
   * delivery schema; the result is the fold over the metric list it returns.
   */
  lemma ReportSeesFramesWithoutTimestamp(reference: Frame, current: Frame, reference': Frame, current': Frame,
                                        report: (Frame, Frame, Schema) -> Option<seq<Metric>>)
    requires WellFormed(reference) && WellFormed(current)
    requires WithoutTimestamp(reference, reference') && WithoutTimestamp(current, current')
    ensures CalculateDriftMetrics(reference, Some(current), report)
         == ExtractDriftMetrics(report(current', reference', DeliverySchema))
  {
    DroppedIsWithoutTimestamp(reference, reference');
    DroppedIsWithoutTimestamp(current, current');
  }

  lemma DroppedIsWithoutTimestamp(f: Frame, g: Frame)
    requires WellFormed(f) && WithoutTimestamp(f, g)
    ensures DropColumnIfPresent(f, TimestampColumn) == g
  {
    var h := DropColumnIfPresent(f, TimestampColumn);
    DropColumnKeepsOthers(f, TimestampColumn);
    assert h.rows == g.rows;
  }

  /** Frames without a timestamp column reach the report unchanged, production data first. */
  lemma NoTimestampReportSeesInputs(reference: Frame, current: Frame,
                                    report: (Frame, Frame, Schema) -> Option<seq<Metric>>)
    requires TimestampColumn !in reference.columns && TimestampColumn !in current.columns
    ensures CalculateDriftMetrics(reference, Some(current), report)
         == ExtractFrom(report(current, reference, DeliverySchema).GetOr([]))
  {
  }

  /**
   * The timestamp column never reaches the report: rewriting every timestamp,
   * in the reference data and in the production data, changes nothing.
   */
  lemma TimestampInvisible(reference: Frame, current: Frame, referenceStamp: Cell, currentStamp: Cell,
                           report: (Frame, Frame, Schema) -> Option<seq<Metric>>)
    requires WellFormed(reference) && WellFormed(current)
    ensures CalculateDriftMetrics(SetColumn(reference, TimestampColumn, referenceStamp),
                                  Some(SetColumn(current, TimestampColumn, currentStamp)), report)
         == CalculateDriftMetrics(reference, Some(current), report)
  {
    SetThenDrop(reference, TimestampColumn, referenceStamp);
    SetThenDrop(current, TimestampColumn, currentStamp);
  }
}

=== FILE: drift_api.dfy ===
/**
 * The drift exporter: three Prometheus gauges (a drifted-column count, a drift
 * share, and a p-value gauge labelled by column) refreshed from a fresh drift
 * computation on every `/drift` and `/metrics` request.
 */
module DriftApi {
  import opened Wrappers
  import opened JsonData
  import opened Frames
  import opened Drift

  /** The gauges' current values; the labelled gauge keeps one child per column label ever set. */
  datatype Gauges = Gauges(driftedColumns: Json, driftShare: Json, columnPvalue: map<string, Json>)

  /** Unlabelled gauges start at 0.0; the labelled gauge starts without children. */
  const InitialGauges: Gauges := Gauges(JFloat(0.0), JFloat(0.0), map[])

  /** Writing a drift result into the gauges, the `.set` calls of `update_drift_metrics`. */
  function SetGauges(g: Gauges, r: DriftResult): (g': Gauges)
    ensures g'.driftedColumns == r.driftedCount
    ensures g'.driftShare == r.driftShare
    ensures g'.columnPvalue.Keys == g.columnPvalue.Keys + r.columnPvalues.Keys
    ensures forall c <- r.columnPvalues :: g'.columnPvalue[c] == r.columnPvalues[c]
    ensures forall c <- g.columnPvalue :: c !in r.columnPvalues ==> g'.columnPvalue[c] == g.columnPvalue[c]
  {
    Gauges(r.driftedCount, r.driftShare, g.columnPvalue + r.columnPvalues)
  }

  /**
   * `update_drift_metrics`: recompute the drift and set the gauges. When the
   * computation raises, it does so before any gauge is set.
   */
  function UpdateDriftMetrics(g: Gauges, computed: Result<DriftResult, DriftError>): (r: Result<Gauges, DriftError>)
    ensures computed.Failure? ==> r == Failure(computed.error)
    ensures computed.Success? ==> r.Success? && r.value == SetGauges(g, computed.value)
  {
    match computed
    case Failure(e) => Failure(e)
    case Success(result) => Success(SetGauges(g, result))
  }

  /** Labels set by earlier results survive an update whose result does not mention them. */
  lemma StaleLabelsPersist(g: Gauges, r: DriftResult, c: string)
    requires c in g.columnPvalue && c !in r.columnPvalues
    ensures c in SetGauges(g, r).columnPvalue
    ensures SetGauges(g, r).columnPvalue[c] == g.columnPvalue[c]
  {
  }

  /** Updating twice with the same result is the same as updating once. */
  lemma SetGaugesIdempotent(g: Gauges, r: DriftResult)
    ensures SetGauges(SetGauges(g, r), r) == SetGauges(g, r)
  {
    var once := SetGauges(g, r);
    assert once.columnPvalue + r.columnPvalues == once.columnPvalue;
  }

  /** An HTTP response: a JSON body, the exposition of the gauges, or the framework's error 500. */
  datatype Response = Body(json: Json) | Exposition(snapshot: Gauges) | ServerError

  /** The body `calculate_drift` builds by reading the gauges back. */
  function DriftBody(g: Gauges): (j: Json)
    ensures j.JObject? && j.fields.Keys == {"drifted_columns", "drift_share", "column_pvalues"}
    ensures j.fields["column_pvalues"] == JObject(g.columnPvalue)
  {
    JObject(map["drifted_columns" := g.driftedColumns,
                "drift_share" := g.driftShare,
                "column_pvalues" := JObject(g.columnPvalue)])
  }

  /**
   * `GET /drift`: recompute, then read the gauges back. The returned p-values
   * are every label the gauge has ever had, not only the current result's.
   */
  function CalculateDrift(g: Gauges, computed: Result<DriftResult, DriftError>): (out: (Gauges, Response))
    ensures computed.Failure? ==> out == (g, ServerError)
    ensures computed.Success? ==>
              var r := computed.value;
              && out.1.Body?
              && out.1.json.JObject?
              && out.1.json.fields.Keys == {"drifted_columns", "drift_share", "column_pvalues"}
              && out.1.json.fields["drifted_columns"] == r.driftedCount
              && out.1.json.fields["drift_share"] == r.driftShare
              && out.1.json.fields["column_pvalues"] == JObject(g.columnPvalue + r.columnPvalues)
  {
    match UpdateDriftMetrics(g, computed)
    case Failure(_) => (g, ServerError)
    case Success(g') => (g', Body(DriftBody(g')))
  }

  /** `GET /metrics`: recompute, then export the state of every gauge. */
  function Metrics(g: Gauges, computed: Result<DriftResult, DriftError>): (out: (Gauges, Response))
    ensures computed.Failure? ==> out == (g, ServerError)
    ensures computed.Success? ==> out.1 == Exposition(out.0) && out.0 == SetGauges(g, computed.value)
  {
    match UpdateDriftMetrics(g, computed)
    case Failure(_) => (g, ServerError)
    case Success(g') => (g', Exposition(g'))
  }

  /** `GET /ping`. */
  function Ping(): Json {
    JObject(map["status" := JStr("ok")])
  }

  /** The first `/drift` after start-up reports exactly the result's values and labels. */
  lemma FirstDriftReportsResult(r: DriftResult)
    ensures var (g, resp) := CalculateDrift(InitialGauges, Success(r));
            && g.columnPvalue == r.columnPvalues
            && resp.Body? && resp.json.JObject? && "column_pvalues" in resp.json.fields
            && resp.json.fields["column_pvalues"] == JObject(r.columnPvalues)
  {
    assert InitialGauges.columnPvalue + r.columnPvalues == r.columnPvalues;
  }

  /** `/drift` and `/metrics` leave the gauges in the same state. */
  lemma DriftAndMetricsAgree(g: Gauges, computed: Result<DriftResult, DriftError>)
    ensures CalculateDrift(g, computed).0 == Metrics(g, computed).0
  {
  }

  /** Without a production log both endpoints answer an error 500 and leave the gauges alone. */
  lemma MissingLogIsServerError(g: Gauges, reference: Frame,
                                report: (Frame, Frame, Schema) -> Option<seq<Metric>>)
    ensures CalculateDrift(g, CalculateDriftMetrics(reference, None, report)) == (g, ServerError)
    ensures Metrics(g, CalculateDriftMetrics(reference, None, report)) == (g, ServerError)
  {
  }

  /**
   * Two results in a row: a column reported only by the first still appears in
   * the second `/drift` response with its first value.
   */
  lemma StaleLabelInDriftResponse(g: Gauges, first: DriftResult, second: DriftResult, c: string)
    requires c in first.columnPvalues && c !in second.columnPvalues
    ensures var (g1, _) := CalculateDrift(g, Success(first));
            var (_, resp) := CalculateDrift(g1, Success(second));
            && resp.Body?
            && resp.json.JObject?
            && resp.json.fields["column_pvalues"].JObject?
            && c in resp.json.fields["column_pvalues"].fields
            && resp.json.fields["column_pvalues"].fields[c] == first.columnPvalues[c]
  {
  }
}

=== FILE: frames.dfy ===
/**
 * The slice of pandas' DataFrame semantics the monitoring code uses.
 * A frame is an ordered list of distinct column names and a list of rows;
 * a row maps column names to cells, and a column a row has no entry for
 * holds NaN in that row.
 */
module Frames {

  /** One cell of a frame. Floats are carried as reals and are only copied. */
  datatype Cell = Text(s: string) | Float(x: real) | Int(i: int) | Stamp(t: int)

  type Row = map<string, Cell>

  datatype Frame = Frame(columns: seq<string>, rows: seq<Row>)

  predicate Distinct(cs: seq<string>) {
    forall i, j :: 0 <= i < j < |cs| ==> cs[i] != cs[j]
  }

  /** Column names are distinct and every row only has entries for the frame's columns. */
  predicate WellFormed(f: Frame) {
    && Distinct(f.columns)
    && forall r <- f.rows :: r.Keys <= ColumnSet(f)
  }

  function ColumnSet(f: Frame): set<string> {
    set c <- f.columns
  }

  /** `xs` with every element of `drop` removed, in the original order. */
  function Without(xs: seq<string>, drop: set<string>): (r: seq<string>)
    ensures forall x :: x in r <==> x in xs && x !in drop
    ensures |r| <= |xs|
    decreases |xs|
  {
    if |xs| == 0 then []
    else
      var rest := Without(xs[1..], drop);
      assert forall x :: x in xs <==> x == xs[0] || x in xs[1..];
      if xs[0] in drop then rest else [xs[0]] + rest
  }

  /** Filtering keeps distinct elements distinct. */
  lemma {:induction false} WithoutDistinct(xs: seq<string>, drop: set<string>)
    requires Distinct(xs)
    ensures Distinct(Without(xs, drop))
    decreases |xs|
  {
    if |xs| > 0 {
      WithoutDistinct(xs[1..], drop);
      var rest := Without(xs[1..], drop);
      if xs[0] !in drop {
        assert xs[0] !in xs[1..];
        DistinctAppend([xs[0]], rest);
      }
    }
  }

  /** Filtering out elements that do not occur leaves the sequence as it is. */
  lemma {:induction false} WithoutNothing(xs: seq<string>, drop: set<string>)
    requires forall x <- xs :: x !in drop
    ensures Without(xs, drop) == xs
    decreases |xs|
  {
    if |xs| > 0 {
      assert xs[0] in xs;
      WithoutNothing(xs[1..], drop);
      assert [xs[0]] + xs[1..] == xs;
    }
  }

  /** Filtering out every element leaves nothing. */
  lemma {:induction false} WithoutEverything(xs: seq<string>, drop: set<string>)
    requires forall x <- xs :: x in drop
    ensures Without(xs, drop) == []
    decreases |xs|
  {
    if |xs| > 0 {
      assert xs[0] in xs;
      WithoutEverything(xs[1..], drop);
    }
  }

  /** `Without` distributes over concatenation. */
  lemma {:induction false} WithoutAppend(xs: seq<string>, ys: seq<string>, drop: set<string>)
    ensures Without(xs + ys, drop) == Without(xs, drop) + Without(ys, drop)
    decreases |xs|
  {
    if |xs| == 0 {
      assert xs + ys == ys;
    } else {
      assert (xs + ys)[1..] == xs[1..] + ys;
      WithoutAppend(xs[1..], ys, drop);
    }
  }

  lemma DistinctAppend(xs: seq<string>, ys: seq<string>)
    requires Distinct(xs) && Distinct(ys)
    requires forall y <- ys :: y !in xs
    ensures Distinct(xs + ys)
  {
    forall i, j | 0 <= i < j < |xs + ys|
      ensures (xs + ys)[i] != (xs + ys)[j]
    {
      if i < |xs| && |xs| <= j {
        assert (xs + ys)[j] == ys[j - |xs|];
        assert ys[j - |xs|] in ys;
      }
    }
  }

  /** `df[name] = value` with a scalar: every row gets `value` under `name`; a new column goes last. */
  function SetColumn(f: Frame, name: string, value: Cell): (g: Frame)
    ensures |g.rows| == |f.rows|
  {
    Frame(AddColumn(f.columns, name), SetInRows(f.rows, name, value))
  }

  /** The column list after assigning `name`: unchanged if present, otherwise `name` appended. */
  function AddColumn(cs: seq<string>, name: string): (r: seq<string>)
    decreases |cs|
  {
    if |cs| == 0 then [name]
    else if cs[0] == name then cs
    else [cs[0]] + AddColumn(cs[1..], name)
  }

  lemma {:induction false} AddColumnAppends(cs: seq<string>, name: string)
    ensures AddColumn(cs, name) == if name in cs then cs else cs + [name]
    decreases |cs|
  {
    if |cs| > 0 && cs[0] != name {
      AddColumnAppends(cs[1..], name);
      assert name in cs <==> name in cs[1..];
      assert cs == [cs[0]] + cs[1..];
    }
  }

  /** Every row with `name` mapped to `value`. */
  function SetInRows(rows: seq<Row>, name: string, value: Cell): (r: seq<Row>)
    ensures |r| == |rows|
    ensures forall i :: 0 <= i < |r| ==> r[i] == rows[i][name := value]
    decreases |rows|
  {
    if |rows| == 0 then [] else [rows[0][name := value]] + SetInRows(rows[1..], name, value)
  }

  /** Setting a column writes `value` into every row and changes no other entry. */
  lemma SetColumnRows(f: Frame, name: string, value: Cell)
    ensures var g := SetColumn(f, name, value);
            forall i :: 0 <= i < |g.rows| ==>
              && g.rows[i].Keys == f.rows[i].Keys + {name}
              && g.rows[i][name] == value
              && forall k <- f.rows[i].Keys :: k != name ==> g.rows[i][k] == f.rows[i][k]
  {
  }

  /** Setting a column keeps the existing column order and adds `name` at the end when it is new. */
  lemma SetColumnColumns(f: Frame, name: string, value: Cell)
    ensures var g := SetColumn(f, name, value);
            && g.columns == (if name in f.columns then f.columns else f.columns + [name])
            && ColumnSet(g) == ColumnSet(f) + {name}
  {
    AddColumnAppends(f.columns, name);
  }

  lemma SetColumnWellFormed(f: Frame, name: string, value: Cell)
    requires WellFormed(f)
    ensures WellFormed(SetColumn(f, name, value))
  {
    var g := SetColumn(f, name, value);
    AddColumnAppends(f.columns, name);
    if name !in f.columns {
      DistinctAppend(f.columns, [name]);
    }
    forall r <- g.rows
      ensures r.Keys <= ColumnSet(g)
    {
      var i :| 0 <= i < |g.rows| && g.rows[i] == r;
      assert f.rows[i] in f.rows;
    }
  }

  /**
   * `pd.concat([a, b], ignore_index=True)`: the rows of `a` then the rows of `b`;
   * the columns of `a`, then those of `b`'s columns that `a` lacks, in `b`'s order.
   */
  function Concat(a: Frame, b: Frame): (g: Frame)
    ensures g.rows == a.rows + b.rows
  {
    Frame(a.columns + Without(b.columns, ColumnSet(a)), a.rows + b.rows)
  }

  /** Concatenation takes the union of the columns, `a`'s first and in order. */
  lemma ConcatColumns(a: Frame, b: Frame)
    ensures var g := Concat(a, b);
            && ColumnSet(g) == ColumnSet(a) + ColumnSet(b)
            && g.columns[..|a.columns|] == a.columns
            && (ColumnSet(b) <= ColumnSet(a) ==> g.columns == a.columns)
  {
    if ColumnSet(b) <= ColumnSet(a) {
      WithoutEverything(b.columns, ColumnSet(a));
    }
  }

  lemma ConcatWellFormed(a: Frame, b: Frame)
    requires WellFormed(a) && WellFormed(b)
    ensures WellFormed(Concat(a, b))
  {
    WithoutDistinct(b.columns, ColumnSet(a));
    DistinctAppend(a.columns, Without(b.columns, ColumnSet(a)));
    ConcatColumns(a, b);
  }

  /** The last `min(n, |s|)` elements of `s`. */
  function Last<T>(s: seq<T>, n: nat): (r: seq<T>)
    ensures |r| == if |s| <= n then |s| else n
    ensures forall i :: 0 <= i < |r| ==> r[i] == s[|s| - |r| + i]
  {
    if |s| <= n then s else s[|s| - n..]
  }

  /** A non-empty cut of a non-empty sequence ends with the sequence's last element. */
  lemma LastKeepsLast<T>(s: seq<T>, n: nat)
    requires |s| > 0 && n > 0
    ensures |Last(s, n)| > 0 && Last(s, n)[|Last(s, n)| - 1] == s[|s| - 1]
  {
  }

  /** Truncating before appending changes nothing once the result is truncated again. */
  lemma LastAppend<T>(s: seq<T>, t: seq<T>, n: nat)
    ensures Last(Last(s, n) + t, n) == Last(s + t, n)
  {
    if |s| > n {
      assert Last(s, n) + t == (s + t)[|s| - n..];
    }
  }

  /** `df.tail(n)`: the last `n` rows (all of them when there are fewer), same columns. */
  function Tail(f: Frame, n: nat): (g: Frame)
    ensures g.columns == f.columns
    ensures |g.rows| <= n && |g.rows| <= |f.rows|
    ensures |g.rows| == |f.rows| || |g.rows| == n
    ensures forall i :: 0 <= i < |g.rows| ==> g.rows[i] == f.rows[|f.rows| - |g.rows| + i]
  {
    var kept := Last(f.rows, n);
    assert |kept| <= |f.rows|;
    Frame(f.columns, kept)
  }

  /** `tail` keeps the rows `Last` describes. */
  lemma TailIsLast(f: Frame, n: nat)
    ensures Tail(f, n).rows == Last(f.rows, n)
  {
  }

  lemma TailWellFormed(f: Frame, n: nat)
    requires WellFormed(f)
    ensures WellFormed(Tail(f, n))
  {
    var g := Tail(f, n);
    forall r <- g.rows
      ensures r.Keys <= ColumnSet(g)
    {
      var i :| 0 <= i < |g.rows| && g.rows[i] == r;
      assert f.rows[|f.rows| - |g.rows| + i] in f.rows;
    }
  }

  /**
   * `df.drop(columns=[name])` guarded by `if name in df.columns`: the column
   * leaves the column list and every row; a frame without it is returned as is.
   */
  function DropColumnIfPresent(f: Frame, name: string): (g: Frame)
    ensures name !in g.columns
    ensures name !in f.columns ==> g == f
    ensures |g.rows| == |f.rows|
  {
    if name in f.columns then
      Frame(Without(f.columns, {name}), seq(|f.rows|, i requires 0 <= i < |f.rows| => f.rows[i] - {name}))
    else
      f
  }

  /** Dropping touches nothing but the dropped column: other columns keep their order, rows their other entries. */
  lemma DropColumnKeepsOthers(f: Frame, name: string)
    requires WellFormed(f)
    ensures var g := DropColumnIfPresent(f, name);
            && g.columns == Without(f.columns, {name})
            && ColumnSet(g) == ColumnSet(f) - {name}
            && WellFormed(g)
            && forall i :: 0 <= i < |g.rows| ==> g.rows[i] == f.rows[i] - {name}
  {
    var g := DropColumnIfPresent(f, name);
    if name in f.columns {
      WithoutDistinct(f.columns, {name});
      forall r <- g.rows
        ensures r.Keys <= ColumnSet(g)
      {
        var i :| 0 <= i < |g.rows| && g.rows[i] == r;
        assert f.rows[i] in f.rows;
      }
    } else {
      WithoutNothing(f.columns, {name});
      forall i | 0 <= i < |g.rows|
        ensures g.rows[i] == f.rows[i] - {name}
      {
        assert f.rows[i] in f.rows;
      }
    }
  }

  /** Setting a column and then dropping it is the same as dropping it directly. */
  lemma SetThenDrop(f: Frame, name: string, value: Cell)
    requires WellFormed(f)
    ensures DropColumnIfPresent(SetColumn(f, name, value), name) == DropColumnIfPresent(f, name)
  {
    SetThenDropColumns(f, name, value);
    SetThenDropRows(f, name, value);
  }

  lemma SetThenDropColumns(f: Frame, name: string, value: Cell)
    requires WellFormed(f)
    ensures DropColumnIfPresent(SetColumn(f, name, value), name).columns == DropColumnIfPresent(f, name).columns
  {
    DropColumnKeepsOthers(f, name);
    AddColumnAppends(f.columns, name);
    if name !in f.columns {
      WithoutAppend(f.columns, [name], {name});
      WithoutNothing(f.columns, {name});
    }
  }

  lemma SetThenDropRows(f: Frame, name: string, value: Cell)
    requires WellFormed(f)
    ensures DropColumnIfPresent(SetColumn(f, name, value), name).rows == DropColumnIfPresent(f, name).rows
  {
    var g := SetColumn(f, name, value);
    var d := DropColumnIfPresent(g, name);
    var e := DropColumnIfPresent(f, name);
    SetColumnWellFormed(f, name, value);
    DropColumnKeepsOthers(g, name);
    DropColumnKeepsOthers(f, name);
    forall i | 0 <= i < |d.rows|
      ensures d.rows[i] == e.rows[i]
    {
      UpdateThenRemove(f.rows[i], name, value);
    }
  }

  lemma UpdateThenRemove(r: Row, name: string, value: Cell)
    ensures r[name := value] - {name} == r - {name}
  {
  }

  /** The column the prediction log stamps and the drift job drops. */
  const TimestampColumn: string := "timestamp"

  /** A row that has a value for every column of the frame. */
  predicate Complete(columns: seq<string>, r: Row) {
    forall c <- columns :: c in r
  }

  /** The complete rows, in their original order. */
  function CompleteRows(columns: seq<string>, rows: seq<Row>): seq<Row>
    decreases |rows|
  {
    if |rows| == 0 then [] else KeptHead(columns, rows) + CompleteRows(columns, rows[1..])
  }

  /** The first row of `rows`, if it is complete. */
  function KeptHead(columns: seq<string>, rows: seq<Row>): seq<Row>
    requires |rows| > 0
  {
    if Complete(columns, rows[0]) then [rows[0]] else []
  }

  /** The kept rows are complete rows of the input, and every complete input row is kept. */
  lemma {:induction false} CompleteRowsSelects(columns: seq<string>, rows: seq<Row>)
    ensures forall x <- CompleteRows(columns, rows) :: Complete(columns, x) && x in rows
    ensures forall x <- rows :: Complete(columns, x) <==> x in CompleteRows(columns, rows)
    decreases |rows|
  {
    if |rows| > 0 {
      CompleteRowsSelects(columns, rows[1..]);
      assert forall x <- rows :: x == rows[0] || x in rows[1..];
    }
  }

  /** Filtering distributes over concatenation, so it keeps the rows' order. */
  lemma {:induction false} CompleteRowsAppend(columns: seq<string>, a: seq<Row>, b: seq<Row>)
    ensures CompleteRows(columns, a + b) == CompleteRows(columns, a) + CompleteRows(columns, b)
    decreases |a|
  {
    if |a| == 0 {
      assert a + b == b;
    } else {
      var ab := a + b;
      assert ab[0] == a[0] && ab[1..] == a[1..] + b;
      var head := KeptHead(columns, a);
      assert KeptHead(columns, ab) == head;
      CompleteRowsAppend(columns, a[1..], b);
      assert CompleteRows(columns, ab) == head + (CompleteRows(columns, a[1..]) + CompleteRows(columns, b));
    }
  }

  /** `df.dropna()`: keep exactly the rows without NaN; same columns. */
  function DropNa(f: Frame): (g: Frame)
    ensures g.columns == f.columns
    ensures forall r <- g.rows :: Complete(f.columns, r)
    ensures forall r <- f.rows :: Complete(f.columns, r) <==> r in g.rows
    ensures forall r <- g.rows :: r in f.rows
  {
    CompleteRowsSelects(f.columns, f.rows);
    Frame(f.columns, CompleteRows(f.columns, f.rows))
  }

  /** When every row is complete, `dropna()` returns the frame unchanged. */
  lemma DropNaAllComplete(f: Frame)
    requires forall r <- f.rows :: Complete(f.columns, r)
    ensures DropNa(f) == f
  {
    AllComplete(f.columns, f.rows);
  }

  lemma {:induction false} AllComplete(columns: seq<string>, rows: seq<Row>)
    requires forall x <- rows :: Complete(columns, x)
    ensures CompleteRows(columns, rows) == rows
    decreases |rows|
  {
    if |rows| > 0 {
      assert forall x <- rows[1..] :: x in rows;
      AllComplete(columns, rows[1..]);
      assert rows == [rows[0]] + rows[1..];
    }
  }

  /** When every row misses some value, nothing survives `dropna()`. */
  lemma DropNaAllIncomplete(f: Frame)
    requires forall r <- f.rows :: !Complete(f.columns, r)
    ensures IsEmpty(DropNa(f))
  {
    NoneComplete(f.columns, f.rows);
  }

  lemma {:induction false} NoneComplete(columns: seq<string>, rows: seq<Row>)
    requires forall x <- rows :: !Complete(columns, x)
    ensures CompleteRows(columns, rows) == []
    decreases |rows|
  {
    if |rows| > 0 {
      assert forall x <- rows[1..] :: x in rows;
      NoneComplete(columns, rows[1..]);
    }
  }

  /** `df.empty`: the frame has no rows or no columns. */
  predicate IsEmpty(f: Frame) {
    |f.rows| == 0 || |f.columns| == 0
  }
}

=== FILE: json.dfy ===
/** JSON values as Python's `json` module produces and FastAPI returns them. */
module JsonData {

  datatype Json =
    | JNull
    | JBool(b: bool)
    | JInt(i: int)
    | JFloat(x: real)
    | JStr(s: string)
    | JArray(items: seq<Json>)
    | JObject(fields: map<string, Json>)
}

=== FILE: prod_logger.dfy ===
/**
 * The rolling production log: every served prediction is appended to a table
 * that keeps only its newest 20 rows. The log file is modelled as a value,
 * `None` when the file does not exist yet, and the clock as a parameter.
 */
module ProdLogger {
  import opened Wrappers
  import opened Frames

  /** Rows kept by `tail`. */
  const Capacity: nat := 20

  const PredictionColumn: string := "prediction"

  /** The columns of a logged row: the request's columns, then prediction and timestamp. */
  function LogColumns(requestColumns: seq<string>): seq<string> {
    requestColumns + [PredictionColumn, TimestampColumn]
  }

  /** The request rows extended with the prediction and the time of the call. */
  function WithPrediction(data: Frame, prediction: real, now: int): (row: Frame)
    ensures |row.rows| == |data.rows|
  {
    SetColumn(SetColumn(data, PredictionColumn, Float(prediction)), TimestampColumn, Stamp(now))
  }

  /**
   * A logged row is the request row unchanged, plus `prediction` holding the
   * given value and `timestamp` holding the supplied time.
   */
  lemma LoggedRowFields(data: Frame, prediction: real, now: int)
    ensures var row := WithPrediction(data, prediction, now);
            forall i :: 0 <= i < |row.rows| ==>
              && row.rows[i].Keys == data.rows[i].Keys + {PredictionColumn, TimestampColumn}
              && row.rows[i][PredictionColumn] == Float(prediction)
              && row.rows[i][TimestampColumn] == Stamp(now)
              && forall k <- data.rows[i].Keys :: k != PredictionColumn && k != TimestampColumn ==>
                   row.rows[i][k] == data.rows[i][k]
  {
    var once := SetColumn(data, PredictionColumn, Float(prediction));
    SetColumnRows(data, PredictionColumn, Float(prediction));
    SetColumnRows(once, TimestampColumn, Stamp(now));
  }

  /** A request without prediction or timestamp columns is logged with exactly those two added at the end. */
  lemma LoggedColumns(data: Frame, prediction: real, now: int)
    requires PredictionColumn !in data.columns && TimestampColumn !in data.columns
    ensures WithPrediction(data, prediction, now).columns == LogColumns(data.columns)
  {
    AddColumnAppends(data.columns, PredictionColumn);
    AddColumnAppends(data.columns + [PredictionColumn], TimestampColumn);
  }

  lemma WithPredictionWellFormed(data: Frame, prediction: real, now: int)
    requires WellFormed(data)
    ensures WellFormed(WithPrediction(data, prediction, now))
  {
    SetColumnWellFormed(data, PredictionColumn, Float(prediction));
    SetColumnWellFormed(SetColumn(data, PredictionColumn, Float(prediction)), TimestampColumn, Stamp(now));
  }

  /** The rows of the existing log, none when there is no log file. */
  function PriorRows(existing: Option<Frame>): seq<Row> {
    if existing.Some? then existing.value.rows else []
  }

  /**
   * `log_prediction_input`: extend the request, append it to the existing log
   * (or start from it when there is no log), and keep the last `Capacity` rows.
   */
  function LogPredictionInput(existing: Option<Frame>, data: Frame, prediction: real, now: int): (log: Frame)
    ensures |log.rows| <= Capacity
    ensures log.rows == Last(PriorRows(existing) + WithPrediction(data, prediction, now).rows, Capacity)
  {
    var row := WithPrediction(data, prediction, now);
    var updated := if existing.Some? then Concat(existing.value, row) else row;
    assert updated.rows == PriorRows(existing) + row.rows;
    TailIsLast(updated, Capacity);
    Tail(updated, Capacity)
  }

  /** With no log file, one request row becomes a log of exactly that row. */
  lemma FirstLogIsTheRow(data: Frame, prediction: real, now: int)
    requires |data.rows| == 1
    ensures var log := LogPredictionInput(None, data, prediction, now);
            log == WithPrediction(data, prediction, now) && |log.rows| == 1
  {
  }

  /** The newly logged row is the last row of the log. */
  lemma NewRowIsLast(existing: Option<Frame>, data: Frame, prediction: real, now: int)
    requires |data.rows| == 1
    ensures var log := LogPredictionInput(existing, data, prediction, now);
            |log.rows| >= 1 && log.rows[|log.rows| - 1] == WithPrediction(data, prediction, now).rows[0]
  {
    var added := WithPrediction(data, prediction, now).rows;
    var all := PriorRows(existing) + added;
    assert all[|all| - 1] == added[0];
    LastKeepsLast(all, Capacity);
  }

  /** Below capacity nothing is evicted: the old rows are an unchanged prefix and one row is added. */
  lemma NoEvictionBelowCapacity(existing: Frame, data: Frame, prediction: real, now: int)
    requires |data.rows| == 1 && |existing.rows| < Capacity
    ensures var log := LogPredictionInput(Some(existing), data, prediction, now);
            |log.rows| == |existing.rows| + 1 && log.rows[..|existing.rows|] == existing.rows
  {
  }

  /** At capacity exactly the oldest row is evicted and the others move up by one. */
  lemma EvictsOldestAtCapacity(existing: Frame, data: Frame, prediction: real, now: int)
    requires |data.rows| == 1 && |existing.rows| == Capacity
    ensures var log := LogPredictionInput(Some(existing), data, prediction, now);
            |log.rows| == Capacity && log.rows[..Capacity - 1] == existing.rows[1..]
  {
  }

  /**
   * The log's columns stay the request columns plus prediction and timestamp:
   * a first write creates them, and later writes with the same request columns keep them.
   */
  lemma LogSchemaStable(existing: Option<Frame>, data: Frame, prediction: real, now: int)
    requires PredictionColumn !in data.columns && TimestampColumn !in data.columns
    requires existing.Some? ==> existing.value.columns == LogColumns(data.columns)
    ensures LogPredictionInput(existing, data, prediction, now).columns == LogColumns(data.columns)
  {
    var row := WithPrediction(data, prediction, now);
    LoggedColumns(data, prediction, now);
    if existing.Some? {
      ConcatColumns(existing.value, row);
    }
  }

  /** Logging keeps a well-formed log well-formed. */
  lemma LogWellFormed(existing: Option<Frame>, data: Frame, prediction: real, now: int)
    requires WellFormed(data)
    requires existing.Some? ==> WellFormed(existing.value)
    ensures WellFormed(LogPredictionInput(existing, data, prediction, now))
  {
    var row := WithPrediction(data, prediction, now);
    WithPredictionWellFormed(data, prediction, now);
    if existing.Some? {
      ConcatWellFormed(existing.value, row);
      TailWellFormed(Concat(existing.value, row), Capacity);
    } else {
      TailWellFormed(row, Capacity);
    }
  }

  /** One logged prediction: the request frame, the prediction, and the clock reading. */
  datatype Entry = Entry(data: Frame, prediction: real, time: int)

  /** The log after a sequence of calls, in call order. */
  function Replay(log: Option<Frame>, entries: seq<Entry>): Option<Frame>
    decreases |entries|
  {
    if |entries| == 0 then log
    else
      var last := entries[|entries| - 1];
      Some(LogPredictionInput(Replay(log, entries[..|entries| - 1]), last.data, last.prediction, last.time))
  }

  /** One more call logs on top of the log the earlier calls left. */
  lemma ReplayAppend(log: Option<Frame>, entries: seq<Entry>, e: Entry)
    ensures Replay(log, entries + [e]) == Some(LogPredictionInput(Replay(log, entries), e.data, e.prediction, e.time))
  {
    assert (entries + [e])[..|entries|] == entries;
  }

  /** Every row the calls produced, in call order, before any eviction. */
  function Produced(entries: seq<Entry>): seq<Row>
    decreases |entries|
  {
    if |entries| == 0 then []
    else
      var last := entries[|entries| - 1];
      Produced(entries[..|entries| - 1]) + WithPrediction(last.data, last.prediction, last.time).rows
  }

  /** Starting without a log, the log after any calls holds the newest `Capacity` produced rows, in order. */
  lemma {:induction false} ReplayKeepsNewest(entries: seq<Entry>)
    requires |entries| > 0
    ensures Replay(None, entries).Some?
    ensures Replay(None, entries).value.rows == Last(Produced(entries), Capacity)
    decreases |entries|
  {
    var n := |entries|;
    var last := entries[n - 1];
    var added := WithPrediction(last.data, last.prediction, last.time).rows;
    if n == 1 {
      assert entries[..0] == [];
    } else {
      ReplayKeepsNewest(entries[..n - 1]);
      LastAppend(Produced(entries[..n - 1]), added, Capacity);
    }
  }

  /** Every call logs a one-row request frame, as the inference service does. */
  predicate SingleRows(entries: seq<Entry>) {
    forall i :: 0 <= i < |entries| ==> |entries[i].data.rows| == 1
  }

  /** The log row a single-row call produces. */
  function RowOf(e: Entry): Row
    requires |e.data.rows| == 1
  {
    WithPrediction(e.data, e.prediction, e.time).rows[0]
  }

  /** The log rows of single-row calls, one per call, in call order. */
  function RowsOf(entries: seq<Entry>): seq<Row>
    requires SingleRows(entries)
  {
    seq(|entries|, i requires 0 <= i < |entries| => RowOf(entries[i]))
  }

  /**
   * With single-row requests, after n calls from no log the log is the rows of
   * the last min(n, 20) calls, oldest first.
   */
  lemma ReplaySingleRows(entries: seq<Entry>)
    requires |entries| > 0
    requires SingleRows(entries)
    ensures Replay(None, entries).Some?
    ensures Replay(None, entries).value.rows == Last(RowsOf(entries), Capacity)
    ensures |Replay(None, entries).value.rows| == if |entries| <= Capacity then |entries| else Capacity
  {
    ReplayKeepsNewest(entries);
    ProducedIsRowsOf(entries);
  }

  lemma ProducedIsRowsOf(entries: seq<Entry>)
    requires SingleRows(entries)
    ensures Produced(entries) == RowsOf(entries)
  {
    ProducedSingleRows(entries);
  }

  lemma {:induction false} ProducedSingleRows(entries: seq<Entry>)
    requires SingleRows(entries)
    ensures |Produced(entries)| == |entries|
    ensures forall i :: 0 <= i < |entries| ==> Produced(entries)[i] == RowOf(entries[i])
    decreases |entries|
  {
    if |entries| > 0 {
      var n := |entries|;
      var prefix := entries[..n - 1];
      ProducedSingleRows(prefix);
      var added := WithPrediction(entries[n - 1].data, entries[n - 1].prediction, entries[n - 1].time).rows;
      assert Produced(entries) == Produced(prefix) + added;
      forall i | 0 <= i < n
        ensures Produced(entries)[i] == RowOf(entries[i])
      {
        if i < n - 1 {
          assert prefix[i] == entries[i];
        }
      }
    }
  }
}

=== FILE: text.dfy ===
/**
 * The three Python string operations the drift extraction relies on:
 * substring membership (`sub in s`), the last piece of `s.split(sep)`,
 * and `s.rstrip(c)` for a single character.
 */
module Text {
  import opened Wrappers

  /** `sub` occurs in `s` starting at index `i`. */
  predicate OccursAt(s: string, sub: string, i: int) {
    0 <= i && i + |sub| <= |s| && s[i..i + |sub|] == sub
  }

  /** Occurrences in `s[k..]` are the occurrences in `s` at or after `k`, shifted by `k`. */
  lemma OccursAtDrop(s: string, sub: string, k: nat)
    requires k <= |s|
    ensures forall j :: k <= j ==> (OccursAt(s, sub, j) <==> OccursAt(s[k..], sub, j - k))
  {
    forall j | k <= j
      ensures OccursAt(s, sub, j) <==> OccursAt(s[k..], sub, j - k)
    {
      if j + |sub| <= |s| {
        assert s[k..][j - k..j - k + |sub|] == s[j..j + |sub|];
      }
    }
  }

  /** The index of the leftmost occurrence of `sub` in `s`, as `str.find` computes it. */
  function FindFirst(s: string, sub: string): (r: Option<nat>)
    ensures r.Some? ==> OccursAt(s, sub, r.value)
    ensures r.Some? ==> forall j :: 0 <= j < r.value ==> !OccursAt(s, sub, j)
    ensures r.None? ==> forall j :: !OccursAt(s, sub, j)
    decreases |s|
  {
    if |s| < |sub| then None
    else if s[..|sub|] == sub then Some(0)
    else
      OccursAtDrop(s, sub, 1);
      assert !OccursAt(s, sub, 0);
      var rest := FindFirst(s[1..], sub);
      match rest
      case None => None
      case Some(k) => Some(k + 1)
  }

  /** Python's `sub in s` on strings (the empty string is in every string). */
  predicate Contains(s: string, sub: string) {
    FindFirst(s, sub).Some?
  }

  lemma ContainsIff(s: string, sub: string)
    ensures Contains(s, sub) <==> exists i :: OccursAt(s, sub, i)
  {
  }

  /**
   * The last element of `s.split(sep)`: Python splits left to right at each
   * leftmost occurrence, so the last piece is what follows the final split.
   */
  function AfterLast(s: string, sep: string): (r: string)
    requires |sep| > 0
    ensures |r| <= |s| && r == s[|s| - |r|..]
    ensures forall j :: !OccursAt(r, sep, j)
    ensures |r| == |s| || (|r| + |sep| <= |s| && OccursAt(s, sep, |s| - |r| - |sep|))
    decreases |s|
  {
    match FindFirst(s, sep)
    case None => s
    case Some(i) =>
      var t := s[i + |sep|..];
      var r := AfterLast(t, sep);
      OccursAtDrop(s, sep, i + |sep|);
      assert s[|s| - |r|..] == t[|t| - |r|..];
      assert OccursAt(s, sep, i);
      r
  }

  /** When `sep` occurs, the last piece starts right after an occurrence of `sep`. */
  lemma AfterLastOfContained(s: string, sep: string)
    requires |sep| > 0 && Contains(s, sep)
    ensures |AfterLast(s, sep)| + |sep| <= |s|
    ensures OccursAt(s, sep, |s| - |AfterLast(s, sep)| - |sep|)
    ensures !Contains(AfterLast(s, sep), sep)
  {
    var k := FindFirst(s, sep).value;
    assert OccursAt(s, sep, k);
  }

  /** An occurrence in a prefix of `s` is an occurrence in `s`. */
  lemma OccursInPrefix(s: string, t: string, sub: string)
    requires |t| <= |s| && t == s[..|t|]
    ensures forall j :: OccursAt(t, sub, j) ==> OccursAt(s, sub, j)
  {
    forall j | OccursAt(t, sub, j)
      ensures OccursAt(s, sub, j)
    {
      assert s[j..j + |sub|] == t[j..j + |sub|];
    }
  }

  /** `s.rstrip(c)`: `s` without its trailing run of `c` characters. */
  function RStrip(s: string, c: char): (r: string)
    ensures |r| <= |s| && r == s[..|r|]
    ensures |r| == 0 || r[|r| - 1] != c
    ensures forall i :: |r| <= i < |s| ==> s[i] == c
    decreases |s|
  {
    if |s| > 0 && s[|s| - 1] == c then RStrip(s[..|s| - 1], c) else s
  }

  /** The stripped result is determined by the three facts RStrip promises. */
  lemma RStripUnique(s: string, c: char, r: string)
    requires |r| <= |s| && r == s[..|r|]
    requires |r| == 0 || r[|r| - 1] != c
    requires forall i :: |r| <= i < |s| ==> s[i] == c
    ensures r == RStrip(s, c)
  {
  }
}

=== FILE: wrappers.dfy ===
/** Option and Result values used to model absent data and raised exceptions. */
module Wrappers {

  /** A value that may be absent (a file that does not exist, a key that is missing). */
  datatype Option<+T> = None | Some(value: T) {

    /** The carried value, or `default` when there is none (Python's `dict.get(k, default)`). */
    function GetOr(default: T): T {
      match this
      case Some(v) => v
      case None => default
    }
  }

  /** The outcome of a computation that may raise: its value, or the error it raises. */
  datatype Result<+R, +E> = Success(value: R) | Failure(error: E)
}
